=== FILE: README.md ===
# OWASP CSRFGuard: configuration parsing and utility helpers in Dafny

This project models two pure parts of OWASP CSRFGuard.

- **`PropertiesConfigurationProvider`** turns a `java.util.Properties` map into the typed CSRFGuard settings:
  - token name, length and session key;
  - the rotate, token-per-page, precreate, Ajax and protect flags;
  - the new-token landing page and its enable flag;
  - the configured actions with their parameters;
  - the protected and unprotected page sets;
  - the protected HTTP methods.

  It fails with "action class N has not yet been specified" or "failure to define at least one action".
- **`CsrfGuardUtils`** contributes five helpers:
  - `httpProtocolAndDomain` cuts a URL down to protocol and domain;
  - `isBlank` comes in a `String` and an `Object` version;
  - `getInitParameter` falls back from the init value to the configuration-file default to a hard default;
  - `length` is a null-safe size.

Modules:

- `Wrappers` (`wrappers.dfy`): `Option`, which stands for a nullable reference, and `Result`, which stands for a thrown configuration error.
- `JavaText` (`java_text.dfy`): the Java library behaviour the source depends on. It covers:
  - `String.indexOf` and `String.trim`;
  - `String.split` with a one-character separator, including the rule that trailing empty pieces are discarded;
  - `Boolean.valueOf` and `Character.isWhitespace`.
- `CsrfGuardUtils` (`csrf_guard_utils.dfy`): the utility helpers. `isBlank(String)` is a method with the source's scanning loop.
- `PropertiesConfiguration` (`properties_configuration.dfy`): the settings record, the property keys and their defaults, and `Parse`.
  - `Parse` is the constructor. Like the source, it runs a pass that declares the actions and then a pass that attaches their parameters. The source's third loop collects both page sets at once; the model collects each set in its own pass, which gives the same sets.
  - The module also holds reference definitions stated over the whole map: `DeclaredActionNames`, `HasUndeclaredParameter` and `PagesUnder`.
- `PropertiesConfigurationFacts` (`properties_configuration_facts.dfy`): proofs that the passes compute the reference definitions.

Java iterates `properties.keySet()` in an unspecified order. The model makes that order an explicit argument `keys`, which must list every key exactly once (`IsEnumeration`). Only two results depend on it:

- the order of the action list;
- which undeclared action an error names. It is the first offending key in iteration order.

`LemmaParseOrderIndependent` proves that every other result is the same for every order.

Notes on the source's behaviour:

- Page rules are kept as the raw URI strings the properties give. Pattern matching happens outside this code.
- The method list is split by `String.split(",")`, which discards trailing empty pieces. So `"POST,"` gives `{"POST"}`, not `{"POST", ""}`, and a list made only of `","` gives the empty set.
- `getInitParameter` tests for trim-emptiness: characters at or below U+0020. It does not use `isBlank`, which tests `Character.isWhitespace`.

## Model

| member | source | states |
|---|---|---|
| `PropertiesConfiguration.Parse` | csrfguard/src/main/java/org/owasp/csrfguard/config/PropertiesConfigurationProvider.java:90-203 | The whole constructor. On success there is at least one action. The no-action error arises only when the first pass declares nothing. An undeclared-action error names an action that the first pass did not declare. The other settings are stated by `LemmaParseOutcome`, `LemmaParseActions`, `LemmaParseActionParameters`, `LemmaParsePages`, `LemmaParseScalars` and `LemmaParseLandingPage`, and the method set by the `LemmaProtectedMethods...` lemmas. |
| `PropertiesConfiguration.AttachParameters` | csrfguard/src/main/java/org/owasp/csrfguard/config/PropertiesConfigurationProvider.java:137-160 | On success the second pass keeps the number of actions and each action's name and class. On failure it reports an undeclared action, whose name no action in the list has. `LemmaAttachParametersFailure` and `LemmaAttachParametersReportsFirst` state when it fails and which action it names; `LemmaAttachParametersSuccess` states the parameters it adds. |
| `PropertiesConfiguration.UseNewTokenLandingPage` | csrfguard/src/main/java/org/owasp/csrfguard/config/PropertiesConfigurationProvider.java:103-110 | An explicit `UseNewTokenLandingPage` value decides the flag through `Boolean.valueOf`. Without it, the flag is set iff `NewTokenLandingPage` is present. |
| `PropertiesConfiguration.ParseProtectedMethods` | csrfguard/src/main/java/org/owasp/csrfguard/config/PropertiesConfigurationProvider.java:196-202 | An absent list gives no methods, and no method contains a comma. `LemmaProtectedMethodsPieces`, `LemmaProtectedMethodsNone` and `LemmaProtectedMethodsBlank` together fix the set: its non-empty members, whether it is empty, and whether it holds the empty string. |
| `PropertiesConfigurationFacts.LemmaParseOutcome` | csrfguard/src/main/java/org/owasp/csrfguard/config/PropertiesConfigurationProvider.java:137-165 | Parsing succeeds iff (a) every parameter key names a declared action and (b) at least one action is declared. It fails with the undeclared-action error iff some parameter key names an undeclared action; that error takes precedence over the no-action error. It fails with the no-action error iff nothing is declared and no parameter key exists. The reported name is undeclared and comes from the first offending key in iteration order. |
| `PropertiesConfigurationFacts.LemmaParseActions` | csrfguard/src/main/java/org/owasp/csrfguard/config/PropertiesConfigurationProvider.java:115-165 | On success the action list is non-empty and its names are distinct. The names are exactly the suffixes without a '.' of keys under `org.owasp.csrfguard.action.`. Each action's class is the value of its declaring key. |
| `PropertiesConfigurationFacts.LemmaParseActionParameters` | csrfguard/src/main/java/org/owasp/csrfguard/config/PropertiesConfigurationProvider.java:141-158 | On success parameter P is on action N iff the key `org.owasp.csrfguard.action.N.P` exists, and then it holds that key's value. |
| `PropertiesConfigurationFacts.LemmaParseParameterKeys` | csrfguard/src/main/java/org/owasp/csrfguard/config/PropertiesConfigurationProvider.java:141-158 | On success every parameter key sets one parameter on the action named by its directive before the first '.'. The parameter's name is the text after that '.', dots included, and its value is the key's value. |
| `PropertiesConfigurationFacts.LemmaDeclareActionsNames` | csrfguard/src/main/java/org/owasp/csrfguard/config/PropertiesConfigurationProvider.java:118-133 | The first pass declares exactly the directives of the action keys that have no '.'. Keys with a '.' never create an action. |
| `PropertiesConfigurationFacts.LemmaDeclareActionsDistinct` | csrfguard/src/main/java/org/owasp/csrfguard/config/PropertiesConfigurationProvider.java:118-133 | Distinct keys declare distinct action names, so each name is registered once. |
| `PropertiesConfiguration.DeclareActions` | csrfguard/src/main/java/org/owasp/csrfguard/config/PropertiesConfigurationProvider.java:118-133 | Every declared action has a name without '.', comes from the key `org.owasp.csrfguard.action.` + name, carries that key's value as its class, and starts with no parameters. |
| `PropertiesConfigurationFacts.LemmaAttachParametersFailure` | csrfguard/src/main/java/org/owasp/csrfguard/config/PropertiesConfigurationProvider.java:141-152 | The second pass fails iff some key names an action not yet declared. |
| `PropertiesConfigurationFacts.LemmaAttachParametersReportsFirst` | csrfguard/src/main/java/org/owasp/csrfguard/config/PropertiesConfigurationProvider.java:141-152 | When the second pass fails, the error is the undeclared-action error, and it names the action of the first key in iteration order that names an undeclared action. |
| `PropertiesConfigurationFacts.LemmaAttachParametersSuccess` | csrfguard/src/main/java/org/owasp/csrfguard/config/PropertiesConfigurationProvider.java:141-158 | On success the second pass keeps each action's name and class. It adds exactly the parameters whose keys name that action, with those keys' values, and leaves other parameters unchanged. |
| `PropertiesConfigurationFacts.LemmaParameterKey` | csrfguard/src/main/java/org/owasp/csrfguard/config/PropertiesConfigurationProvider.java:142-154 | For an action name without '.', the key `org.owasp.csrfguard.action.N.P` is a parameter key. It parses back to action N and parameter P, even when P contains dots. |
| `PropertiesConfigurationFacts.LemmaParameterKeyOf` | csrfguard/src/main/java/org/owasp/csrfguard/config/PropertiesConfigurationProvider.java:142-154 | Every parameter key is rebuilt from its action and parameter names, and its action name has no '.'. |
| `PropertiesConfigurationFacts.LemmaParsePages` | csrfguard/src/main/java/org/owasp/csrfguard/config/PropertiesConfigurationProvider.java:167-194 | The protected set is exactly the values of keys `org.owasp.csrfguard.protected.X` where X has no '.'. The unprotected set is the same for `org.owasp.csrfguard.unprotected.X`. No other key contributes to either set. |
| `PropertiesConfigurationFacts.LemmaCollectPages` | csrfguard/src/main/java/org/owasp/csrfguard/config/PropertiesConfigurationProvider.java:168-194 | The page loop collects exactly the values of the page-name keys it visits. |
| `PropertiesConfigurationFacts.LemmaKeyKinds` | csrfguard/src/main/java/org/owasp/csrfguard/config/PropertiesConfigurationProvider.java:118-194 | An action declaration or parameter key is never a page key, and no key is both a protected and an unprotected page key, so each key feeds at most one of the passes. |
| `PropertiesConfigurationFacts.LemmaPrefixesDisjoint` | csrfguard/src/main/java/org/owasp/csrfguard/config/PropertiesConfigurationProvider.java:52-56 | No key is under two of the action, protected-page and unprotected-page prefixes. |
| `PropertiesConfigurationFacts.LemmaParseScalars` | csrfguard/src/main/java/org/owasp/csrfguard/config/PropertiesConfigurationProvider.java:96-113 | Each setting takes its key's value when present and otherwise its default: token name `OWASP_CSRFGUARD`, session key `OWASP_CSRFGUARD_KEY`, length "32", logger `ConsoleLogger`, PRNG `SHA1PRNG`/`SUN`. Each flag is true iff its value equals "true" ignoring case, so an absent flag is false. |
| `PropertiesConfigurationFacts.LemmaParseLandingPage` | csrfguard/src/main/java/org/owasp/csrfguard/config/PropertiesConfigurationProvider.java:103-110 | An explicit `UseNewTokenLandingPage` decides the flag. Without it, the flag is set iff `NewTokenLandingPage` is present. |
| `PropertiesConfigurationFacts.LemmaProtectedMethodsEmpty` | csrfguard/src/main/java/org/owasp/csrfguard/config/PropertiesConfigurationProvider.java:197-198 | An absent list, or one that trims to empty, gives no methods. |
| `PropertiesConfigurationFacts.LemmaProtectedMethodsTrimmed` | csrfguard/src/main/java/org/owasp/csrfguard/config/PropertiesConfigurationProvider.java:199-201 | Every protected method is already trimmed and contains no comma. |
| `PropertiesConfigurationFacts.LemmaProtectedMethodsNone` | csrfguard/src/main/java/org/owasp/csrfguard/config/PropertiesConfigurationProvider.java:196-201 | No method is protected iff the list trims to empty or every comma-separated piece is empty. A list made only of commas therefore protects nothing, because `split` discards every piece. |
| `PropertiesConfigurationFacts.LemmaProtectedMethodsBlank` | csrfguard/src/main/java/org/owasp/csrfguard/config/PropertiesConfigurationProvider.java:199-201 | For a list that does not trim to empty, the empty string is a protected method iff some piece trims to empty and that piece or a later one is non-empty, so that `split` keeps it. |
| `PropertiesConfigurationFacts.LemmaProtectedMethodsBlankPiece` | csrfguard/src/main/java/org/owasp/csrfguard/config/PropertiesConfigurationProvider.java:197-201 | `" ,"` protects the empty string, `{""}`, rather than nothing. |
| `PropertiesConfigurationFacts.LemmaProtectedMethodsPieces` | csrfguard/src/main/java/org/owasp/csrfguard/config/PropertiesConfigurationProvider.java:199-201 | Every protected method is the trim of some comma-separated piece. Every piece whose trim is non-empty gives a protected method. |
| `PropertiesConfigurationFacts.LemmaProtectedMethodsSingle` | csrfguard/src/main/java/org/owasp/csrfguard/config/PropertiesConfigurationProvider.java:197-201 | A list without a comma gives exactly its trimmed self. |
| `PropertiesConfigurationFacts.LemmaProtectedMethodsExamples` | csrfguard/src/main/java/org/owasp/csrfguard/config/PropertiesConfigurationProvider.java:197-201 | An absent list and a blank list give no methods, and `" POST "` gives `{"POST"}`. |
| `PropertiesConfigurationFacts.LemmaProtectedMethodsTrailingComma` | csrfguard/src/main/java/org/owasp/csrfguard/config/PropertiesConfigurationProvider.java:198-200 | `"POST,"` gives `{"POST"}` and `","` gives no methods, because `split` discards trailing empty pieces. |
| `PropertiesConfigurationFacts.LemmaParseOrderIndependent` | csrfguard/src/main/java/org/owasp/csrfguard/config/PropertiesConfigurationProvider.java:118-194 | Any two iteration orders over the same keys give the same outcome kind. On success they give equal settings apart from action order, and the same set of actions. |
| `JavaText.IndexOfFrom` | csrfguard/src/main/java/org/owasp/csrfguard/util/CsrfGuardUtils.java:66 | `indexOf(c, from)` returns -1 iff `c` does not occur at or after `from`. Otherwise it returns the first such position. |
| `JavaText.IndexOf` | csrfguard/src/main/java/org/owasp/csrfguard/config/PropertiesConfigurationProvider.java:123 | `indexOf('.')` is -1 iff there is no '.'. Otherwise it is the first position of '.'. |
| `JavaText.LemmaTrim` | csrfguard/src/main/java/org/owasp/csrfguard/config/PropertiesConfigurationProvider.java:198 | `trim` gives the part of the string between two runs of characters at or below U+0020. The result neither starts nor ends with such a character. |
| `JavaText.LemmaTrimEmpty` | csrfguard/src/main/java/org/owasp/csrfguard/config/PropertiesConfigurationProvider.java:198 | A string trims to empty iff all its characters are at or below U+0020. |
| `JavaText.LemmaTrimIdempotent` | csrfguard/src/main/java/org/owasp/csrfguard/config/PropertiesConfigurationProvider.java:200 | Trimming twice is trimming once. |
| `JavaText.SplitAll` | csrfguard/src/main/java/org/owasp/csrfguard/config/PropertiesConfigurationProvider.java:199 | Splitting gives at least one piece, and no piece contains the separator. |
| `JavaText.LemmaJoinSplit` | csrfguard/src/main/java/org/owasp/csrfguard/config/PropertiesConfigurationProvider.java:199 | Joining the pieces with the separator rebuilds the string. |
| `JavaText.LemmaSplitJoin` | csrfguard/src/main/java/org/owasp/csrfguard/config/PropertiesConfigurationProvider.java:199 | Splitting a join of separator-free pieces gives back those pieces. |
| `JavaText.JavaSplit` | csrfguard/src/main/java/org/owasp/csrfguard/config/PropertiesConfigurationProvider.java:199 | `split` gives a prefix of all the pieces, and every dropped piece is empty. A string without the separator splits into itself. |
| `JavaText.LemmaIsWhitespace` | csrfguard/src/main/java/org/owasp/csrfguard/util/CsrfGuardUtils.java:331 | `IsWhitespace` models `Character.isWhitespace` as the table U+0009-U+000D, U+001C-U+0020, U+1680, U+2000-U+2006, U+2008-U+200A, U+2028, U+2029, U+205F and U+3000, and nothing else. The lemma pins the boundaries: space, tab, newline, U+001F, U+2028 and U+3000 are whitespace; the no-break spaces U+00A0, U+2007 and U+202F, U+180E, U+200B and U+0000 are not. |
| `JavaText.LemmaParseBoolean` | csrfguard/src/main/java/org/owasp/csrfguard/config/PropertiesConfigurationProvider.java:99 | `Boolean.valueOf` is true iff the value is present and is "true" with each letter in either case. For example, "TRUE" and "True" are true; "false", "yes" and null are false. |
| `CsrfGuardUtils.HttpProtocolAndDomain` | csrfguard/src/main/java/org/owasp/csrfguard/util/CsrfGuardUtils.java:65-72 | The result is a prefix of the URL and has no '/' at index 8 or later. It equals the URL iff the URL has no such '/'. Otherwise it ends just before the first such '/'. |
| `CsrfGuardUtils.LemmaHttpProtocolAndDomainIdempotent` | csrfguard/src/main/java/org/owasp/csrfguard/util/CsrfGuardUtils.java:65-72 | Applying the function twice is applying it once. |
| `CsrfGuardUtils.LemmaHttpProtocolAndDomainExample` | csrfguard/src/main/java/org/owasp/csrfguard/util/CsrfGuardUtils.java:61 | `https://a.b/path` gives `https://a.b`, and `https://a.b` gives itself. |
| `CsrfGuardUtils.IsBlank` | csrfguard/src/main/java/org/owasp/csrfguard/util/CsrfGuardUtils.java:326-337 | The scan returns true iff the string is null, empty, or every character is whitespace. |
| `CsrfGuardUtils.LemmaBlankExamples` | csrfguard/src/main/java/org/owasp/csrfguard/util/CsrfGuardUtils.java:314-320 | null, `""` and `" "` are blank; `"bob"` and `"  bob  "` are not. |
| `CsrfGuardUtils.IsBlankObject` | csrfguard/src/main/java/org/owasp/csrfguard/util/CsrfGuardUtils.java:304-309 | null is blank, a string is blank iff `isBlank(String)` says so, and any other object is not blank. |
| `CsrfGuardUtils.GetInitParameter` | csrfguard/src/main/java/org/owasp/csrfguard/util/CsrfGuardUtils.java:216-229 | The result is one of the three candidates: the first that is non-null and not trim-empty, taken in order init value, file default, hard default. When the first two are unusable, the result is the hard default as given. The result is usable iff some candidate is. |
| `CsrfGuardUtils.LemmaGetInitParameterStable` | csrfguard/src/main/java/org/owasp/csrfguard/util/CsrfGuardUtils.java:216-229 | A usable result fed back as the init value is returned unchanged, whatever the defaults. |
| `CsrfGuardUtils.Length` | csrfguard/src/main/java/org/owasp/csrfguard/util/CsrfGuardUtils.java:410-425 | `length` is 0 for null, the element count of an array or collection, the entry count of a map, and 1 for a string or any other object. `LemmaLengthZero` is its only lemma. |
| `CsrfGuardUtils.LemmaLengthZero` | csrfguard/src/main/java/org/owasp/csrfguard/util/CsrfGuardUtils.java:410-425 | `length` is 0 iff the value is null or an empty array, collection or map. A string or any other plain object has length 1, whatever its content. |

## Left out

- Logger instantiation, `SecureRandom.getInstance` and `Class.forName(...).newInstance()` for actions use reflection and provider lookup. The model keeps the class, algorithm and provider names as strings, so their exceptions (`ClassNotFoundException`, `NoSuchAlgorithmException`, and so on) are not modelled.
- `Integer.parseInt` of the token length: the length is kept as its text, default "32", and `NumberFormatException` is not modelled.
- A `Properties` object with a separate defaults table is not modelled. The whole property set is one map, although `keySet()` would not list the defaults.
- The action list order and the reported undeclared action depend on hash iteration order. They are modelled through the `keys` argument, not computed.
- `Boolean.valueOf` compares with ASCII case mapping only. That is all a comparison against "true" needs.
- `IsWhitespace` follows the current Java tables, where U+180E is not whitespace. Java releases before 9 treat it as whitespace.
- Dafny characters are Unicode scalar values, while Java strings are UTF-16 code units. Supplementary characters are neither whitespace nor trimmed, and the configuration parser only cuts strings at positions it found in the same string, so its results do not change.
- `HttpProtocolAndDomain`: the fixed start index 8 of `indexOf('/', 8)` counts UTF-16 code units in Java, while the model counts characters. The two results differ exactly when some '/' lies at a character index below 8 but at a code-unit index of 8 or more, which needs a supplementary character before it. Java then cuts at such a '/', and the model cuts at a later one or not at all.
- `Length`: `length` returns a Java `int`. The model does not bound it by 2^31 - 1, and it ignores `Collection.size()` saturating there.
- `HttpProtocolAndDomain`: a null URL, which makes the source throw `NullPointerException`, is not modelled. The argument is a plain string.
- `GetInitParameter`: the lookup `servletConfig.getInitParameter(name)` is replaced by its result, passed in as `initValue`.
- The getters of `PropertiesConfigurationProvider` only read fields. They are the fields of `Config`.
- The other `CsrfGuardUtils` members depend on Java reflection or on streams, so they have no pure behaviour to state: `callMethod`, `invokeMethod`, `forName`, `assignField`, `field`, `injectInException`, `newInstance`, `toArray`, `typeCast`, `className`, `classNameCollection`, `iterator`, `next`, `readResourceFileContent`, `readFileContent`, `readInputStreamContent` and the `closeQuietly` overloads.
- `TokenTag`, `TokenValueTag` and `CsrfFunctions` are JSP glue. They delegate to the `CsrfGuard` singleton, which is not part of this model.
- The token store, the request-validation engine and their concurrency are not part of this model.

=== FILE: csrf_guard_utils.dfy ===
/** The pure helpers of `CsrfGuardUtils`: cutting a URL down to protocol and
    domain, blank tests, the init-parameter fallback chain and the null-safe
    size of a value. */
module CsrfGuardUtils {
  import opened Wrappers
  import opened JavaText

  /** Where `HttpProtocolAndDomain` starts looking for the slash that opens the
      path: the length of "https://". */
  const PathSearchStart: nat := 8

  /** No '/' at or after `PathSearchStart`. */
  predicate NoPathSlash(url: string) {
    forall i | PathSearchStart <= i < |url| :: url[i] != '/'
  }

  /** The protocol and domain of `url`: everything before the first '/' at
      index 8 or later, or all of `url` when there is no such '/'. */
  function HttpProtocolAndDomain(url: string): (r: string)
    ensures r <= url
    ensures NoPathSlash(r)
    ensures r == url <==> NoPathSlash(url)
    ensures r != url ==> PathSearchStart <= |r| && url[|r|] == '/'
  {
    var slash := IndexOfFrom(url, '/', PathSearchStart);
    if slash < 0 then url else url[..slash]
  }

  lemma LemmaHttpProtocolAndDomainIdempotent(url: string)
    ensures HttpProtocolAndDomain(HttpProtocolAndDomain(url)) == HttpProtocolAndDomain(url)
  {
  }

  /** The example the source documents. */
  lemma LemmaHttpProtocolAndDomainExample()
    ensures HttpProtocolAndDomain("https://a.b/path") == "https://a.b"
    ensures HttpProtocolAndDomain("https://a.b") == "https://a.b"
  {
    assert "https://a.b/path"[11] == '/';
    assert "https://a.b/path"[..11] == "https://a.b";
  }

  /** A possibly-null string is blank when it is null, empty, or made only of
      whitespace. */
  ghost predicate Blank(str: Option<string>) {
    str.None? || forall i | 0 <= i < |str.value| :: IsWhitespace(str.value[i])
  }

  /** `isBlank(String)`: scans for the first non-whitespace character. */
  method IsBlank(str: Option<string>) returns (blank: bool)
    ensures blank <==> Blank(str)
  {
    if str.None? || |str.value| == 0 {
      return true;
    }
    var s := str.value;
    var i := 0;
    while i < |s|
      invariant 0 <= i <= |s|
      invariant forall j | 0 <= j < i :: IsWhitespace(s[j])
    {
      if !IsWhitespace(s[i]) {
        return false;
      }
      i := i + 1;
    }
    return true;
  }

  /** The examples the source documents. */
  lemma LemmaBlankExamples()
    ensures Blank(None) && Blank(Some("")) && Blank(Some(" "))
    ensures !Blank(Some("bob")) && !Blank(Some("  bob  "))
  {
    assert !IsWhitespace("bob"[0]);
    assert !IsWhitespace("  bob  "[2]);
  }

  /** A Java value as far as `isBlank(Object)` and `length` look at it. */
  datatype Obj =
    | Null
    | Str(s: string)
    | ArrayObj(elements: seq<Obj>)
    | CollectionObj(elements: seq<Obj>)
    | MapObj(entries: map<Obj, Obj>)
    | OtherObj

  /** `isBlank(Object)`: null is blank, a string is blank as `isBlank(String)`
      says, and no other object is. */
  method IsBlankObject(input: Obj) returns (blank: bool)
    ensures blank <==> input.Null? || (input.Str? && Blank(Some(input.s)))
    ensures !input.Null? && !input.Str? ==> !blank
  {
    if input.Null? {
      return true;
    }
    if input.Str? {
      blank := IsBlank(Some(input.s));
    } else {
      blank := false;
    }
  }

  /** Usable as an init parameter: present and not empty once trimmed. */
  predicate Usable(v: Option<string>) {
    v.Some? && Trim(v.value) != ""
  }

  /** `getInitParameter`: the servlet's init value when usable, else the
      configuration file's default when usable, else `defaultValue` as given. */
  function GetInitParameter(initValue: Option<string>, configFileDefault: Option<string>,
                            defaultValue: Option<string>): (r: Option<string>)
    ensures r == initValue || r == configFileDefault || r == defaultValue
    ensures Usable(initValue) ==> r == initValue
    ensures !Usable(initValue) && Usable(configFileDefault) ==> r == configFileDefault
    ensures !Usable(initValue) && !Usable(configFileDefault) ==> r == defaultValue
    ensures Usable(r) <==> Usable(initValue) || Usable(configFileDefault) || Usable(defaultValue)
  {
    if Usable(initValue) then initValue
    else if Usable(configFileDefault) then configFileDefault
    else defaultValue
  }

  /** Feeding a usable result back in as the init value returns it unchanged. */
  lemma LemmaGetInitParameterStable(initValue: Option<string>, configFileDefault: Option<string>,
                                    defaultValue: Option<string>)
    requires Usable(GetInitParameter(initValue, configFileDefault, defaultValue))
    ensures var r := GetInitParameter(initValue, configFileDefault, defaultValue);
            forall c, d :: GetInitParameter(r, c, d) == r
  {
  }

  /** `length`: 0 for null, the element count of an array or collection, the
      entry count of a map, and 1 for any other object. */
  function Length(o: Obj): (n: nat)
    ensures o.ArrayObj? || o.CollectionObj? ==> n == |o.elements|
    ensures o.MapObj? ==> n == |o.entries|
    ensures o.Null? ==> n == 0
    ensures o.Str? || o.OtherObj? ==> n == 1
  {
    match o
    case Null => 0
    case ArrayObj(xs) => |xs|
    case CollectionObj(xs) => |xs|
    case MapObj(m) => |m|
    case _ => 1
  }

  /** `length` is zero exactly for null and for empty containers, and a string
      counts as one object whatever its number of characters. */
  lemma LemmaLengthZero(o: Obj)
    ensures Length(o) == 0 <==> o.Null? || o == ArrayObj([]) || o == CollectionObj([]) || o == MapObj(map[])
    ensures o.Str? || o.OtherObj? ==> Length(o) == 1
  {
    if o.MapObj? && Length(o) == 0 {
      assert o.entries == map[];
    }
  }
}

=== FILE: java_text.dfy ===
/** The parts of `java.lang.String`, `Character` and `Boolean` that the
    configuration parser and the utility helpers rely on, stated over
    Dafny strings. */
module JavaText {
  import opened Wrappers

  /** `String.indexOf(c, from)` for a non-negative start index: the first
      position at or after `from` holding `c`, or -1 when there is none. */
  function IndexOfFrom(s: string, c: char, from: nat): (r: int)
    decreases |s| - from
    ensures -1 <= r < |s|
    ensures r == -1 <==> forall i | from <= i < |s| :: s[i] != c
    ensures r >= 0 ==> from <= r && s[r] == c && forall i | from <= i < r :: s[i] != c
  {
    if from >= |s| then -1
    else if s[from] == c then from
    else IndexOfFrom(s, c, from + 1)
  }

  /** `String.indexOf(c)`: the first position of `c` in `s`, or -1. */
  function IndexOf(s: string, c: char): (r: int)
    ensures -1 <= r < |s|
    ensures r == -1 <==> c !in s
    ensures r >= 0 ==> r < |s| && s[r] == c && c !in s[..r]
  {
    var r := IndexOfFrom(s, c, 0);
    assert r >= 0 ==> forall i | 0 <= i < r :: s[..r][i] != c;
    r
  }

  /** Where `String.trim()` starts its result: the first character above
      U+0020, or `|s|` when there is none. */
  function TrimStart(s: string, from: nat := 0): (lo: nat)
    requires from <= |s|
    decreases |s| - from
    ensures from <= lo <= |s|
    ensures forall i | from <= i < lo :: s[i] <= ' '
    ensures lo == |s| || s[lo] > ' '
  {
    if from < |s| && s[from] <= ' ' then TrimStart(s, from + 1) else from
  }

  /** Where `String.trim()` ends its result: one past the last character above
      U+0020 at or after `lo`, or `lo` when there is none. */
  function TrimEnd(s: string, lo: nat, hi: nat): (end: nat)
    requires lo <= hi <= |s|
    decreases hi
    ensures lo <= end <= hi
    ensures forall i | end <= i < hi :: s[i] <= ' '
    ensures end == lo || s[end - 1] > ' '
  {
    if lo < hi && s[hi - 1] <= ' ' then TrimEnd(s, lo, hi - 1) else hi
  }

  /** `String.trim()`: `s` without its leading and trailing characters at or
      below U+0020 (space and the control characters). */
  function Trim(s: string): string {
    var lo := TrimStart(s);
    s[lo..TrimEnd(s, lo, |s|)]
  }

  /** `Trim(s)` is the stretch of `s` left between a run of characters at or
      below U+0020 at each end, and it neither starts nor ends with one. */
  lemma LemmaTrim(s: string)
    ensures var lo := TrimStart(s);
            var hi := TrimEnd(s, lo, |s|);
            && Trim(s) == s[lo..hi]
            && (forall i | 0 <= i < lo :: s[i] <= ' ')
            && (forall i | hi <= i < |s| :: s[i] <= ' ')
            && (Trim(s) == [] || (Trim(s)[0] > ' ' && Trim(s)[|Trim(s)| - 1] > ' '))
  {
  }

  lemma LemmaTrimEmpty(s: string)
    ensures Trim(s) == [] <==> forall i | 0 <= i < |s| :: s[i] <= ' '
  {
    var lo := TrimStart(s);
    if lo < |s| {
      assert Trim(s)[0] == s[lo];
    }
  }

  lemma LemmaTrimIdempotent(s: string)
    ensures Trim(Trim(s)) == Trim(s)
  {
    var t := Trim(s);
    LemmaTrim(s);
    if t != [] {
      assert TrimStart(t) == 0;
      assert TrimEnd(t, 0, |t|) == |t|;
    } else {
      assert TrimStart(t) == 0;
    }
  }

  /** Every character of `Trim(s)` occurs in `s`. */
  lemma LemmaTrimChars(s: string, c: char)
    requires c in Trim(s)
    ensures c in s
  {
    var lo := TrimStart(s);
    var t := Trim(s);
    var j :| 0 <= j < |t| && t[j] == c;
    assert s[lo + j] == c;
  }

  /** A character absent from `s` is absent from `Trim(s)`. */
  lemma LemmaTrimExcludes(s: string, c: char)
    ensures c !in s ==> c !in Trim(s)
  {
    if c in Trim(s) {
      LemmaTrimChars(s, c);
    }
  }

  /** All the pieces of `s` between occurrences of `sep`, empty ones included:
      a string with n separators has n + 1 pieces. */
  function SplitAll(s: string, sep: char): (pieces: seq<string>)
    decreases |s|
    ensures |pieces| >= 1
    ensures forall i | 0 <= i < |pieces| :: sep !in pieces[i]
  {
    var i := IndexOf(s, sep);
    if i < 0 then [s] else [s[..i]] + SplitAll(s[i + 1..], sep)
  }

  /** The pieces glued back together with `sep` between consecutive ones. */
  function Join(pieces: seq<string>, sep: char): string
    requires |pieces| >= 1
  {
    if |pieces| == 1 then pieces[0] else pieces[0] + [sep] + Join(pieces[1..], sep)
  }

  lemma LemmaSplitAround<T>(s: seq<T>, i: nat)
    requires i < |s|
    ensures s[..i] + [s[i]] + s[i + 1..] == s
  {
    assert s[i..] == [s[i]] + s[i + 1..];
    assert s == s[..i] + s[i..];
  }

  lemma LemmaJoinCons(head: string, rest: seq<string>, sep: char)
    requires |rest| >= 1
    ensures Join([head] + rest, sep) == head + [sep] + Join(rest, sep)
  {
    assert ([head] + rest)[1..] == rest;
  }

  lemma {:induction false} LemmaJoinSplit(s: string, sep: char)
    decreases |s|
    ensures Join(SplitAll(s, sep), sep) == s
  {
    var i := IndexOf(s, sep);
    if i >= 0 {
      var head, rest := s[..i], s[i + 1..];
      assert SplitAll(s, sep) == [head] + SplitAll(rest, sep);
      LemmaJoinSplit(rest, sep);
      LemmaJoinCons(head, SplitAll(rest, sep), sep);
      LemmaSplitAround(s, i);
    }
  }

  /** Splitting `head + [sep] + rest` for a separator-free `head` cuts at the
      separator after `head`. */
  lemma LemmaSplitAllGlued(head: string, rest: string, sep: char)
    requires sep !in head
    ensures SplitAll(head + [sep] + rest, sep) == [head] + SplitAll(rest, sep)
  {
    var s := head + [sep] + rest;
    assert s[..|head|] == head;
    assert s[|head|] == sep;
    assert s[|head| + 1..] == rest;
    assert IndexOf(s, sep) == |head|;
  }

  lemma {:induction false} LemmaSplitJoin(pieces: seq<string>, sep: char)
    requires |pieces| >= 1
    requires forall i | 0 <= i < |pieces| :: sep !in pieces[i]
    ensures SplitAll(Join(pieces, sep), sep) == pieces
  {
    if |pieces| > 1 {
      var head, tail := pieces[0], pieces[1..];
      assert Join(pieces, sep) == head + [sep] + Join(tail, sep);
      LemmaSplitAllGlued(head, Join(tail, sep), sep);
      LemmaSplitJoin(tail, sep);
      assert pieces == [head] + tail;
    }
  }

  /** `pieces` with its trailing empty strings removed. */
  function DropTrailingEmpty(pieces: seq<string>): (r: seq<string>)
    ensures r <= pieces
    ensures forall i | |r| <= i < |pieces| :: pieces[i] == ""
    ensures r == [] || r[|r| - 1] != ""
  {
    if pieces == [] || pieces[|pieces| - 1] != "" then pieces
    else DropTrailingEmpty(pieces[..|pieces| - 1])
  }

  /** `String.split` with a one-character separator and no limit: the pieces
      between separators with trailing empty pieces discarded, except that a
      string without the separator splits into itself alone. */
  function JavaSplit(s: string, sep: char): (r: seq<string>)
    ensures r <= SplitAll(s, sep)
    ensures forall i | |r| <= i < |SplitAll(s, sep)| :: SplitAll(s, sep)[i] == ""
    ensures sep !in s ==> r == [s]
    ensures sep in s ==> r == [] || r[|r| - 1] != ""
    ensures forall i | 0 <= i < |r| :: sep !in r[i]
  {
    var all := SplitAll(s, sep);
    if sep !in s then
      assert IndexOf(s, sep) < 0;
      assert all == [s];
      [s]
    else
      assert IndexOf(s, sep) >= 0;
      DropTrailingEmpty(all)
  }

  /** ASCII lower-casing; the only case mapping comparing against "true" needs. */
  function ToLowerAscii(c: char): char {
    if 'A' <= c <= 'Z' then (c as int + 32) as char else c
  }

  /** `Boolean.valueOf(String)`: true exactly when the string is present and
      equals "true" ignoring case. */
  function ParseBoolean(v: Option<string>): bool {
    v.Some? && |v.value| == 4 && forall i | 0 <= i < 4 :: ToLowerAscii(v.value[i]) == "true"[i]
  }

  /** Independent reading of `Boolean.valueOf`: each of the four letters may be
      written in either case, and nothing else is accepted. */
  lemma LemmaParseBoolean(v: Option<string>)
    ensures ParseBoolean(v) <==> v.Some? && |v.value| == 4
                                 && forall i | 0 <= i < 4 :: v.value[i] == "true"[i] || v.value[i] == "TRUE"[i]
    ensures ParseBoolean(Some("true")) && ParseBoolean(Some("TRUE")) && ParseBoolean(Some("True"))
    ensures !ParseBoolean(Some("false")) && !ParseBoolean(Some("yes")) && !ParseBoolean(None)
  {
    assert ToLowerAscii('f') != 't';
    assert ToLowerAscii('y') != 't';
  }

  /** `Character.isWhitespace`: the Unicode space, line and paragraph
      separators other than the no-break spaces, plus the ASCII controls
      U+0009 to U+000D and U+001C to U+001F. */
  predicate IsWhitespace(c: char) {
    var n := c as int;
    || 0x09 <= n <= 0x0D
    || 0x1C <= n <= 0x20
    || n == 0x1680
    || 0x2000 <= n <= 0x2006
    || 0x2008 <= n <= 0x200A
    || n == 0x2028 || n == 0x2029
    || n == 0x205F
    || n == 0x3000
  }

  /** The boundary cases of the table: the ASCII space, tab and separators
      count, while the no-break spaces U+00A0, U+2007 and U+202F, the
      Mongolian vowel separator U+180E and the zero-width space U+200B do not. */
  lemma LemmaIsWhitespace()
    ensures IsWhitespace(' ') && IsWhitespace('\t') && IsWhitespace('\n') && IsWhitespace('\U{001F}')
    ensures IsWhitespace('\U{2028}') && IsWhitespace('\U{3000}')
    ensures !IsWhitespace('\U{00A0}') && !IsWhitespace('\U{2007}') && !IsWhitespace('\U{202F}')
    ensures !IsWhitespace('\U{180E}') && !IsWhitespace('\U{200B}') && !IsWhitespace('\U{0000}')
  {
  }
}

=== FILE: properties_configuration.dfy ===
/** `PropertiesConfigurationProvider`: turns a flat property map into the
    typed CSRFGuard settings, or fails with one of the two configuration
    errors the constructor raises. */
module PropertiesConfiguration {
  import opened Wrappers
  import opened JavaText

  const ActionPrefix: string := "org.owasp.csrfguard.action."
  const ProtectedPagePrefix: string := "org.owasp.csrfguard.protected."
  const UnprotectedPagePrefix: string := "org.owasp.csrfguard.unprotected."

  const LoggerKey: string := "org.owasp.csrfguard.Logger"
  const TokenNameKey: string := "org.owasp.csrfguard.TokenName"
  const TokenLengthKey: string := "org.owasp.csrfguard.TokenLength"
  const RotateKey: string := "org.owasp.csrfguard.Rotate"
  const TokenPerPageKey: string := "org.owasp.csrfguard.TokenPerPage"
  const TokenPerPagePrecreateKey: string := "org.owasp.csrfguard.TokenPerPagePrecreate"
  const PrngKey: string := "org.owasp.csrfguard.PRNG"
  const PrngProviderKey: string := "org.owasp.csrfguard.PRNG.Provider"
  const NewTokenLandingPageKey: string := "org.owasp.csrfguard.NewTokenLandingPage"
  const UseNewTokenLandingPageKey: string := "org.owasp.csrfguard.UseNewTokenLandingPage"
  const SessionKeyKey: string := "org.owasp.csrfguard.SessionKey"
  const AjaxKey: string := "org.owasp.csrfguard.Ajax"
  const ProtectKey: string := "org.owasp.csrfguard.Protect"
  const ProtectedMethodsKey: string := "org.owasp.csrfguard.ProtectedMethods"

  const DefaultLogger: string := "org.owasp.csrfguard.log.ConsoleLogger"
  const DefaultTokenName: string := "OWASP_CSRFGUARD"
  const DefaultTokenLength: string := "32"
  const DefaultPrng: string := "SHA1PRNG"
  const DefaultPrngProvider: string := "SUN"
  const DefaultSessionKey: string := "OWASP_CSRFGUARD_KEY"

  /** A `java.util.Properties` object: string keys to string values. */
  type Properties = map<string, string>

  /** `Properties.getProperty(key)`. */
  function GetProperty(props: Properties, key: string): Option<string> {
    if key in props then Some(props[key]) else None
  }

  /** `Properties.getProperty(key, default)`. */
  function GetPropertyOr(props: Properties, key: string, default: string): string {
    GetProperty(props, key).GetOr(default)
  }

  /** A configured action: its name, the class named by its declaring key, and
      the parameters set on it. */
  datatype Action = Action(name: string, className: string, parameters: map<string, string>)

  /** The settings the provider exposes through its getters. The token length
      is kept as the text `Integer.parseInt` would read, and the logger and
      random source as the class and algorithm names that would be loaded. */
  datatype Config = Config(
    loggerClass: string,
    tokenName: string,
    tokenLength: string,
    rotate: bool,
    tokenPerPage: bool,
    tokenPerPagePrecreate: bool,
    prngAlgorithm: string,
    prngProvider: string,
    newTokenLandingPage: Option<string>,
    useNewTokenLandingPage: bool,
    sessionKey: string,
    ajax: bool,
    protect: bool,
    actions: seq<Action>,
    protectedPages: set<string>,
    unprotectedPages: set<string>,
    protectedMethods: set<string>)

  /** The two configuration errors the constructor throws. */
  datatype ConfigError = UndeclaredAction(actionName: string) | NoAction {

    function Message(): string {
      match this
      case UndeclaredAction(name) => "action class " + name + " has not yet been specified"
      case NoAction => "failure to define at least one action"
    }
  }

  /** `keys` lists each key of `props` exactly once, in the order in which
      `properties.keySet()` is iterated. */
  predicate IsEnumeration(keys: seq<string>, props: Properties) {
    && (forall i, j | 0 <= i < j < |keys| :: keys[i] != keys[j])
    && (forall i | 0 <= i < |keys| :: keys[i] in props)
    && (forall k | k in props :: k in keys)
  }

  /** The part of `key` after `prefix`. */
  function Directive(prefix: string, key: string): string
    requires prefix <= key
  {
    key[|prefix|..]
  }

  /** A key under `prefix` whose directive has no '.': it names an action or a page. */
  predicate IsNameKey(prefix: string, key: string) {
    prefix <= key && IndexOf(Directive(prefix, key), '.') < 0
  }

  /** A key under the action prefix whose directive has a '.': it sets a parameter. */
  predicate IsParameterKey(key: string) {
    ActionPrefix <= key && IndexOf(Directive(ActionPrefix, key), '.') >= 0
  }

  /** The action a parameter key refers to: its directive up to the first '.'. */
  function ActionNameOf(key: string): string
    requires IsParameterKey(key)
  {
    var directive := Directive(ActionPrefix, key);
    directive[..IndexOf(directive, '.')]
  }

  /** The parameter a parameter key sets: its directive after the first '.'. */
  function ParameterNameOf(key: string): string
    requires IsParameterKey(key)
  {
    var directive := Directive(ActionPrefix, key);
    directive[IndexOf(directive, '.') + 1..]
  }

  /** The key that sets `parameter` on the action `name`. */
  function ParameterKey(name: string, parameter: string): string {
    ActionPrefix + name + "." + parameter
  }

  function Names(actions: seq<Action>): set<string> {
    set a | a in actions :: a.name
  }

  predicate DistinctNames(actions: seq<Action>) {
    forall i, j | 0 <= i < j < |actions| :: actions[i].name != actions[j].name
  }

  // Reference definitions: what each pass computes, stated over the whole map.

  /** The action names declared by `props`. */
  ghost function DeclaredActionNames(props: Properties): set<string> {
    set k | k in props && IsNameKey(ActionPrefix, k) :: Directive(ActionPrefix, k)
  }

  /** Some parameter key refers to an action that no key declares. */
  ghost predicate HasUndeclaredParameter(props: Properties) {
    exists k :: k in props && IsParameterKey(k) && ActionNameOf(k) !in DeclaredActionNames(props)
  }

  /** The page URIs listed under `prefix`. */
  ghost function PagesUnder(props: Properties, prefix: string): set<string> {
    set k | k in props && IsNameKey(prefix, k) :: props[k]
  }

  // The passes over the keys, in iteration order.

  /** First pass: one action per name key under the action prefix, in key
      order, with no parameters yet. */
  function DeclareActions(props: Properties, keys: seq<string>): (actions: seq<Action>)
    requires forall k | k in keys :: k in props
    ensures forall i | 0 <= i < |actions| ::
              && '.' !in actions[i].name
              && ActionPrefix + actions[i].name in keys
              && actions[i].className == props[ActionPrefix + actions[i].name]
              && actions[i].parameters == map[]
  {
    if keys == [] then []
    else
      var key := keys[0];
      var rest := DeclareActions(props, keys[1..]);
      if IsNameKey(ActionPrefix, key) then
        var name := Directive(ActionPrefix, key);
        assert ActionPrefix + name == key;
        [Action(name, props[key], map[])] + rest
      else rest
  }

  /** `action.setParameter(parameter, value)` on the action called `name`. */
  function SetParameter(actions: seq<Action>, name: string, parameter: string, value: string): (r: seq<Action>)
    ensures |r| == |actions|
    ensures forall i | 0 <= i < |r| :: r[i].name == actions[i].name && r[i].className == actions[i].className
    ensures forall i | 0 <= i < |r| :: r[i].parameters ==
              if actions[i].name == name then actions[i].parameters[parameter := value] else actions[i].parameters
  {
    seq(|actions|, i requires 0 <= i < |actions| =>
      if actions[i].name == name
      then actions[i].(parameters := actions[i].parameters[parameter := value])
      else actions[i])
  }

  /** Second pass: attach each parameter key to the action it names, failing
      at the first one whose action was not declared. */
  function AttachParameters(props: Properties, keys: seq<string>, actions: seq<Action>): (r: Result<seq<Action>, ConfigError>)
    requires forall k | k in keys :: k in props
    ensures r.Success? ==> |r.value| == |actions|
    ensures r.Success? ==> forall i | 0 <= i < |actions| ::
              r.value[i].name == actions[i].name && r.value[i].className == actions[i].className
    ensures r.Failure? ==> r.error.UndeclaredAction? && forall i | 0 <= i < |actions| :: actions[i].name != r.error.actionName
  {
    if keys == [] then Success(actions)
    else
      var key := keys[0];
      if IsParameterKey(key) then
        var name := ActionNameOf(key);
        if name !in Names(actions) then Failure(UndeclaredAction(name))
        else AttachParameters(props, keys[1..], SetParameter(actions, name, ParameterNameOf(key), props[key]))
      else AttachParameters(props, keys[1..], actions)
  }

  /** Third pass, for one prefix: the values of its name keys. */
  function CollectPages(props: Properties, keys: seq<string>, prefix: string): set<string>
    requires forall k | k in keys :: k in props
  {
    if keys == [] then {}
    else
      var found := if IsNameKey(prefix, keys[0]) then {props[keys[0]]} else {};
      found + CollectPages(props, keys[1..], prefix)
  }

  /** The protected methods: none when the list is absent or blank once
      trimmed, else each comma-separated piece trimmed. */
  function ParseProtectedMethods(methodList: Option<string>): (methods: set<string>)
    ensures methodList.None? ==> methods == {}
    ensures forall m | m in methods :: ',' !in m
  {
    if methodList.None? || |Trim(methodList.value)| == 0 then {}
    else
      var pieces := JavaSplit(methodList.value, ',');
      assert forall i | 0 <= i < |pieces| :: ',' !in Trim(pieces[i]) by {
        forall i | 0 <= i < |pieces| {
          LemmaTrimExcludes(pieces[i], ',');
        }
      }
      set i | 0 <= i < |pieces| :: Trim(pieces[i])
  }

  /** `UseNewTokenLandingPage`, whose default is true exactly when a landing
      page is configured. */
  function UseNewTokenLandingPage(props: Properties): (use: bool)
    ensures UseNewTokenLandingPageKey in props ==> (use <==> ParseBoolean(Some(props[UseNewTokenLandingPageKey])))
    ensures UseNewTokenLandingPageKey !in props ==> (use <==> NewTokenLandingPageKey in props)
  {
    assert ToLowerAscii('f') != 't';
    if NewTokenLandingPageKey !in props
    then ParseBoolean(Some(GetPropertyOr(props, UseNewTokenLandingPageKey, "false")))
    else ParseBoolean(Some(GetPropertyOr(props, UseNewTokenLandingPageKey, "true")))
  }

  /** The constructor: the scalar settings, the two action passes, the
      at-least-one-action check, the page sets and the method list. */
  function Parse(props: Properties, keys: seq<string>): (r: Result<Config, ConfigError>)
    requires IsEnumeration(keys, props)
    ensures r.Success? ==> |r.value.actions| > 0
    ensures r == Failure(NoAction) ==> DeclareActions(props, keys) == []
    ensures r.Failure? && r.error.UndeclaredAction? ==>
              forall a | a in DeclareActions(props, keys) :: a.name != r.error.actionName
  {
    var declared := DeclareActions(props, keys);
    var actions :- AttachParameters(props, keys, declared);
    if |actions| == 0 then Failure(NoAction)
    else
      Success(Config(
        loggerClass := GetPropertyOr(props, LoggerKey, DefaultLogger),
        tokenName := GetPropertyOr(props, TokenNameKey, DefaultTokenName),
        tokenLength := GetPropertyOr(props, TokenLengthKey, DefaultTokenLength),
        rotate := ParseBoolean(Some(GetPropertyOr(props, RotateKey, "false"))),
        tokenPerPage := ParseBoolean(Some(GetPropertyOr(props, TokenPerPageKey, "false"))),
        tokenPerPagePrecreate := ParseBoolean(Some(GetPropertyOr(props, TokenPerPagePrecreateKey, "false"))),
        prngAlgorithm := GetPropertyOr(props, PrngKey, DefaultPrng),
        prngProvider := GetPropertyOr(props, PrngProviderKey, DefaultPrngProvider),
        newTokenLandingPage := GetProperty(props, NewTokenLandingPageKey),
        useNewTokenLandingPage := UseNewTokenLandingPage(props),
        sessionKey := GetPropertyOr(props, SessionKeyKey, DefaultSessionKey),
        ajax := ParseBoolean(Some(GetPropertyOr(props, AjaxKey, "false"))),
        protect := ParseBoolean(Some(GetPropertyOr(props, ProtectKey, "false"))),
        actions := actions,
        protectedPages := CollectPages(props, keys, ProtectedPagePrefix),
        unprotectedPages := CollectPages(props, keys, UnprotectedPagePrefix),
        protectedMethods := ParseProtectedMethods(GetProperty(props, ProtectedMethodsKey))))
  }
}

=== FILE: properties_configuration_facts.dfy ===
/** What `PropertiesConfiguration.Parse` computes, proved against the
    reference definitions stated over the whole property map. */
module PropertiesConfigurationFacts {
  import opened Wrappers
  import opened JavaText
  import opened PropertiesConfiguration

  // Directive keys.

  lemma LemmaPrefixDirective(prefix: string, key: string)
    requires prefix <= key
    ensures prefix + Directive(prefix, key) == key
  {
  }

  /** The key built for an action name without '.' parses back into that name
      and parameter. */
  lemma LemmaParameterKey(name: string, parameter: string)
    requires '.' !in name
    ensures IsParameterKey(ParameterKey(name, parameter))
    ensures ActionNameOf(ParameterKey(name, parameter)) == name
    ensures ParameterNameOf(ParameterKey(name, parameter)) == parameter
  {
    var key := ParameterKey(name, parameter);
    var directive := name + "." + parameter;
    assert key == ActionPrefix + directive;
    assert ActionPrefix <= key;
    assert Directive(ActionPrefix, key) == directive;
    assert directive[|name|] == '.';
    assert directive[..|name|] == name;
    assert IndexOf(directive, '.') == |name|;
    assert directive[|name| + 1..] == parameter;
  }

  /** Every parameter key is the key built from its action and parameter names,
      and its action name has no '.'. */
  lemma LemmaParameterKeyOf(key: string)
    requires IsParameterKey(key)
    ensures '.' !in ActionNameOf(key)
    ensures ParameterKey(ActionNameOf(key), ParameterNameOf(key)) == key
  {
    var directive := Directive(ActionPrefix, key);
    var dot := IndexOf(directive, '.');
    assert directive == directive[..dot] + "." + directive[dot + 1..];
    LemmaPrefixDirective(ActionPrefix, key);
  }

  // First pass.

  lemma {:induction false} LemmaDeclareActionsNames(props: Properties, keys: seq<string>)
    requires forall k | k in keys :: k in props
    ensures Names(DeclareActions(props, keys))
         == set k | k in keys && IsNameKey(ActionPrefix, k) :: Directive(ActionPrefix, k)
  {
    if keys != [] {
      LemmaDeclareActionsNames(props, keys[1..]);
      var declared := DeclareActions(props, keys);
      var rest := DeclareActions(props, keys[1..]);
      var expected := set k | k in keys && IsNameKey(ActionPrefix, k) :: Directive(ActionPrefix, k);
      var expectedRest := set k | k in keys[1..] && IsNameKey(ActionPrefix, k) :: Directive(ActionPrefix, k);
      assert forall k :: k in keys <==> k == keys[0] || k in keys[1..];
      if IsNameKey(ActionPrefix, keys[0]) {
        assert declared == [Action(Directive(ActionPrefix, keys[0]), props[keys[0]], map[])] + rest;
        assert Names(declared) == {Directive(ActionPrefix, keys[0])} + Names(rest);
        assert expected == {Directive(ActionPrefix, keys[0])} + expectedRest;
      } else {
        assert expected == expectedRest;
      }
    }
  }

  lemma {:induction false} LemmaDeclareActionsDistinct(props: Properties, keys: seq<string>)
    requires forall k | k in keys :: k in props
    requires forall i, j | 0 <= i < j < |keys| :: keys[i] != keys[j]
    ensures DistinctNames(DeclareActions(props, keys))
  {
    if keys != [] {
      var rest := DeclareActions(props, keys[1..]);
      LemmaDeclareActionsDistinct(props, keys[1..]);
      if IsNameKey(ActionPrefix, keys[0]) {
        var name := Directive(ActionPrefix, keys[0]);
        LemmaPrefixDirective(ActionPrefix, keys[0]);
        assert keys[0] !in keys[1..] by {
          forall m | 0 <= m < |keys[1..]|
            ensures keys[1..][m] != keys[0]
          {
            assert keys[1..][m] == keys[m + 1];
          }
        }
        forall j | 0 <= j < |rest|
          ensures rest[j].name != name
        {
          assert ActionPrefix + rest[j].name in keys[1..];
        }
      }
    }
  }

  // Second pass.

  /** A parameter key that names an action not among `names`. */
  ghost predicate NamesUndeclared(key: string, names: set<string>) {
    IsParameterKey(key) && ActionNameOf(key) !in names
  }

  lemma LemmaSetParameterNames(actions: seq<Action>, name: string, parameter: string, value: string)
    ensures Names(SetParameter(actions, name, parameter, value)) == Names(actions)
  {
    var r := SetParameter(actions, name, parameter, value);
    forall n | n in Names(actions)
      ensures n in Names(r)
    {
      var i :| 0 <= i < |actions| && actions[i].name == n;
      assert r[i].name == n;
    }
  }

  /** `keys[j]` is the first key naming an action outside `names`. */
  ghost predicate IsFirstUndeclared(keys: seq<string>, names: set<string>, j: int) {
    && 0 <= j < |keys|
    && NamesUndeclared(keys[j], names)
    && forall i | 0 <= i < j :: !NamesUndeclared(keys[i], names)
  }

  lemma LemmaFirstUndeclaredShift(keys: seq<string>, names: set<string>, j: int)
    requires keys != [] && !NamesUndeclared(keys[0], names)
    requires IsFirstUndeclared(keys[1..], names, j)
    ensures IsFirstUndeclared(keys, names, j + 1)
  {
    forall i | 0 <= i < j + 1
      ensures !NamesUndeclared(keys[i], names)
    {
      if i > 0 {
        assert keys[i] == keys[1..][i - 1];
      }
    }
  }

  /** The second pass fails exactly when some key names an undeclared action. */
  lemma {:induction false} LemmaAttachParametersFailure(props: Properties, keys: seq<string>, actions: seq<Action>)
    requires forall k | k in keys :: k in props
    ensures AttachParameters(props, keys, actions).Failure?
        <==> exists k :: k in keys && NamesUndeclared(k, Names(actions))
  {
    if keys != [] {
      var key := keys[0];
      if !NamesUndeclared(key, Names(actions)) {
        var next := actions;
        if IsParameterKey(key) {
          next := SetParameter(actions, ActionNameOf(key), ParameterNameOf(key), props[key]);
          LemmaSetParameterNames(actions, ActionNameOf(key), ParameterNameOf(key), props[key]);
        }
        assert AttachParameters(props, keys, actions) == AttachParameters(props, keys[1..], next);
        LemmaAttachParametersFailure(props, keys[1..], next);
        LemmaUndeclaredInTail(keys, Names(actions));
      }
    }
  }

  /** When the first key is fine, an offending key lies in the rest. */
  lemma LemmaUndeclaredInTail(keys: seq<string>, names: set<string>)
    requires keys != [] && !NamesUndeclared(keys[0], names)
    ensures (exists k :: k in keys && NamesUndeclared(k, names))
        <==> (exists k :: k in keys[1..] && NamesUndeclared(k, names))
  {
    if k :| k in keys && NamesUndeclared(k, names) {
      assert k in keys[1..];
    }
    if k :| k in keys[1..] && NamesUndeclared(k, names) {
      assert k in keys;
    }
  }

  /** When the second pass fails, it names the action of the first key, in
      iteration order, that refers to an undeclared action. */
  lemma {:induction false} LemmaAttachParametersReportsFirst(props: Properties, keys: seq<string>, actions: seq<Action>)
    requires forall k | k in keys :: k in props
    requires AttachParameters(props, keys, actions).Failure?
    ensures var e := AttachParameters(props, keys, actions).error;
            && e.UndeclaredAction?
            && exists j :: IsFirstUndeclared(keys, Names(actions), j) && ActionNameOf(keys[j]) == e.actionName
  {
    var key := keys[0];
    var e := AttachParameters(props, keys, actions).error;
    if NamesUndeclared(key, Names(actions)) {
      assert IsFirstUndeclared(keys, Names(actions), 0);
    } else {
      var next := actions;
      if IsParameterKey(key) {
        next := SetParameter(actions, ActionNameOf(key), ParameterNameOf(key), props[key]);
        LemmaSetParameterNames(actions, ActionNameOf(key), ParameterNameOf(key), props[key]);
      }
      assert AttachParameters(props, keys, actions) == AttachParameters(props, keys[1..], next);
      LemmaAttachParametersReportsFirst(props, keys[1..], next);
      var j :| IsFirstUndeclared(keys[1..], Names(actions), j) && ActionNameOf(keys[1..][j]) == e.actionName;
      LemmaFirstUndeclaredShift(keys, Names(actions), j);
    }
  }

  /** On success the second pass keeps every action's name and class and adds
      exactly the parameters whose keys name that action. */
  lemma {:induction false} LemmaAttachParametersSuccess(props: Properties, keys: seq<string>, actions: seq<Action>)
    requires forall k | k in keys :: k in props
    requires forall i | 0 <= i < |actions| :: '.' !in actions[i].name
    requires AttachParameters(props, keys, actions).Success?
    ensures var r := AttachParameters(props, keys, actions).value;
            && |r| == |actions|
            && (forall i | 0 <= i < |r| :: r[i].name == actions[i].name && r[i].className == actions[i].className)
            && (forall i, p | 0 <= i < |r| ::
                  p in r[i].parameters <==> p in actions[i].parameters || ParameterKey(actions[i].name, p) in keys)
            && (forall i, p | 0 <= i < |r| && ParameterKey(actions[i].name, p) in keys ::
                  p in r[i].parameters && r[i].parameters[p] == props[ParameterKey(actions[i].name, p)])
            && (forall i, p | 0 <= i < |r| && ParameterKey(actions[i].name, p) !in keys && p in actions[i].parameters ::
                  p in r[i].parameters && r[i].parameters[p] == actions[i].parameters[p])
  {
    if keys != [] {
      var key := keys[0];
      var r := AttachParameters(props, keys, actions).value;
      assert forall k :: k in keys <==> k == key || k in keys[1..];
      if IsParameterKey(key) {
        var name := ActionNameOf(key);
        var parameter := ParameterNameOf(key);
        var next := SetParameter(actions, name, parameter, props[key]);
        LemmaParameterKeyOf(key);
        LemmaAttachParametersSuccess(props, keys[1..], next);
        forall i, p | 0 <= i < |actions|
          ensures (actions[i].name == name && p == parameter) <==> ParameterKey(actions[i].name, p) == key
        {
          if ParameterKey(actions[i].name, p) == key {
            LemmaParameterKey(actions[i].name, p);
          }
        }
      } else {
        LemmaAttachParametersSuccess(props, keys[1..], actions);
        forall i, p | 0 <= i < |actions|
          ensures ParameterKey(actions[i].name, p) != key
        {
          LemmaParameterKey(actions[i].name, p);
        }
      }
    }
  }

  // Third pass.

  lemma {:induction false} LemmaCollectPages(props: Properties, keys: seq<string>, prefix: string)
    requires forall k | k in keys :: k in props
    ensures CollectPages(props, keys, prefix) == set k | k in keys && IsNameKey(prefix, k) :: props[k]
  {
    if keys != [] {
      LemmaCollectPages(props, keys[1..], prefix);
      assert forall k :: k in keys <==> k == keys[0] || k in keys[1..];
    }
  }

  // The whole constructor.

  /** Under an enumeration, "in the key list" and "in the map" coincide, so the
      first pass declares exactly the declared action names. */
  lemma LemmaDeclaredNames(props: Properties, keys: seq<string>)
    requires IsEnumeration(keys, props)
    ensures Names(DeclareActions(props, keys)) == DeclaredActionNames(props)
    ensures DistinctNames(DeclareActions(props, keys))
  {
    LemmaDeclareActionsNames(props, keys);
    LemmaDeclareActionsDistinct(props, keys);
    assert (set k | k in keys && IsNameKey(ActionPrefix, k) :: Directive(ActionPrefix, k))
        == DeclaredActionNames(props);
  }

  /** Which of the three outcomes the constructor reaches: an undeclared action
      wins over a missing action, and success needs neither. The undeclared
      action reported is the one named by the first offending key in
      iteration order. */
  lemma LemmaParseOutcome(props: Properties, keys: seq<string>)
    requires IsEnumeration(keys, props)
    ensures Parse(props, keys).Success?
        <==> !HasUndeclaredParameter(props) && DeclaredActionNames(props) != {}
    ensures Parse(props, keys) == Failure(NoAction)
        <==> !HasUndeclaredParameter(props) && DeclaredActionNames(props) == {}
    ensures (Parse(props, keys).Failure? && Parse(props, keys).error.UndeclaredAction?)
        <==> HasUndeclaredParameter(props)
    ensures var r := Parse(props, keys);
            r.Failure? && r.error.UndeclaredAction? ==>
              && r.error.actionName !in DeclaredActionNames(props)
              && exists j :: IsFirstUndeclared(keys, DeclaredActionNames(props), j)
                             && ActionNameOf(keys[j]) == r.error.actionName
  {
    var declared := DeclareActions(props, keys);
    LemmaDeclaredNames(props, keys);
    LemmaAttachParametersFailure(props, keys, declared);
    var attached := AttachParameters(props, keys, declared);
    if attached.Failure? {
      LemmaAttachParametersReportsFirst(props, keys, declared);
    }
    assert HasUndeclaredParameter(props)
       <==> exists k :: k in keys && NamesUndeclared(k, Names(declared));
    if attached.Success? {
      LemmaAttachParametersSuccess(props, keys, declared);
      assert |declared| == 0 <==> Names(declared) == {} by {
        if |declared| > 0 {
          assert declared[0].name in Names(declared);
        }
      }
    }
  }

  /** On success there is at least one action, each declared name gives exactly
      one action, and each action carries the class its declaring key names. */
  lemma LemmaParseActions(props: Properties, keys: seq<string>)
    requires IsEnumeration(keys, props)
    requires Parse(props, keys).Success?
    ensures var actions := Parse(props, keys).value.actions;
            && |actions| > 0
            && DistinctNames(actions)
            && Names(actions) == DeclaredActionNames(props)
            && (forall i | 0 <= i < |actions| ::
                  ActionPrefix + actions[i].name in props
                  && actions[i].className == props[ActionPrefix + actions[i].name])
  {
    var declared := DeclareActions(props, keys);
    LemmaDeclaredNames(props, keys);
    LemmaAttachParametersSuccess(props, keys, declared);
    var actions := Parse(props, keys).value.actions;
    assert actions == AttachParameters(props, keys, declared).value;
    assert Names(actions) == Names(declared) by {
      forall n | n in Names(declared)
        ensures n in Names(actions)
      {
        var i :| 0 <= i < |declared| && declared[i].name == n;
        assert actions[i].name == n;
      }
    }
  }

  /** On success the parameters of each action are exactly the parameter keys
      that name it, with their values. */
  lemma LemmaParseActionParameters(props: Properties, keys: seq<string>)
    requires IsEnumeration(keys, props)
    requires Parse(props, keys).Success?
    ensures var actions := Parse(props, keys).value.actions;
            && (forall i, p | 0 <= i < |actions| ::
                  p in actions[i].parameters <==> ParameterKey(actions[i].name, p) in props)
            && (forall i, p | 0 <= i < |actions| && p in actions[i].parameters ::
                  actions[i].parameters[p] == props[ParameterKey(actions[i].name, p)])
  {
    var declared := DeclareActions(props, keys);
    LemmaAttachParametersSuccess(props, keys, declared);
    var actions := Parse(props, keys).value.actions;
    assert actions == AttachParameters(props, keys, declared).value;
    assert forall k :: k in keys <==> k in props;
  }

  /** Every parameter key lands on the action it names, under the name after
      its first '.'. */
  lemma LemmaParseParameterKeys(props: Properties, keys: seq<string>, key: string)
    requires IsEnumeration(keys, props)
    requires Parse(props, keys).Success?
    requires key in props && IsParameterKey(key)
    ensures var actions := Parse(props, keys).value.actions;
            exists i | 0 <= i < |actions| ::
              && actions[i].name == ActionNameOf(key)
              && ParameterNameOf(key) in actions[i].parameters
              && actions[i].parameters[ParameterNameOf(key)] == props[key]
  {
    var actions := Parse(props, keys).value.actions;
    LemmaParseOutcome(props, keys);
    LemmaParseActions(props, keys);
    LemmaParseActionParameters(props, keys);
    LemmaParameterKeyOf(key);
    assert ActionNameOf(key) in Names(actions);
    var i :| 0 <= i < |actions| && actions[i].name == ActionNameOf(key);
    assert ParameterKey(actions[i].name, ParameterNameOf(key)) == key;
  }

  /** The protected and unprotected page sets hold exactly the values of the
      name keys under their prefixes; no other key adds to either. */
  lemma LemmaParsePages(props: Properties, keys: seq<string>)
    requires IsEnumeration(keys, props)
    requires Parse(props, keys).Success?
    ensures Parse(props, keys).value.protectedPages == PagesUnder(props, ProtectedPagePrefix)
    ensures Parse(props, keys).value.unprotectedPages == PagesUnder(props, UnprotectedPagePrefix)
  {
    LemmaCollectPages(props, keys, ProtectedPagePrefix);
    LemmaCollectPages(props, keys, UnprotectedPagePrefix);
    assert (set k | k in keys && IsNameKey(ProtectedPagePrefix, k) :: props[k])
        == PagesUnder(props, ProtectedPagePrefix);
    assert (set k | k in keys && IsNameKey(UnprotectedPagePrefix, k) :: props[k])
        == PagesUnder(props, UnprotectedPagePrefix);
  }

  /** No key lies under two of the three directive prefixes. */
  lemma LemmaPrefixesDisjoint(key: string)
    ensures !(ProtectedPagePrefix <= key && UnprotectedPagePrefix <= key)
    ensures !(ActionPrefix <= key && ProtectedPagePrefix <= key)
    ensures !(ActionPrefix <= key && UnprotectedPagePrefix <= key)
  {
    if ProtectedPagePrefix <= key {
      assert key[20] == 'p';
    }
    if UnprotectedPagePrefix <= key {
      assert key[20] == 'u';
    }
    if ActionPrefix <= key {
      assert key[20] == 'a';
    }
  }

  /** Each key plays at most one part: an action declaration or parameter, a
      protected page or an unprotected page. */
  lemma LemmaKeyKinds(key: string)
    ensures IsNameKey(ActionPrefix, key) || IsParameterKey(key) ==>
              !IsNameKey(ProtectedPagePrefix, key) && !IsNameKey(UnprotectedPagePrefix, key)
    ensures IsNameKey(ProtectedPagePrefix, key) ==> !IsNameKey(UnprotectedPagePrefix, key)
  {
    LemmaPrefixesDisjoint(key);
  }

  /** The scalar settings: each takes its key's value when present and its
      default otherwise, and each flag is set exactly when its value reads as
      "true" ignoring case. */
  lemma LemmaParseScalars(props: Properties, keys: seq<string>)
    requires IsEnumeration(keys, props)
    requires Parse(props, keys).Success?
    ensures var c := Parse(props, keys).value;
            && (TokenNameKey in props ==> c.tokenName == props[TokenNameKey])
            && (TokenNameKey !in props ==> c.tokenName == "OWASP_CSRFGUARD")
            && (SessionKeyKey in props ==> c.sessionKey == props[SessionKeyKey])
            && (SessionKeyKey !in props ==> c.sessionKey == "OWASP_CSRFGUARD_KEY")
            && (TokenLengthKey in props ==> c.tokenLength == props[TokenLengthKey])
            && (TokenLengthKey !in props ==> c.tokenLength == "32")
            && (LoggerKey in props ==> c.loggerClass == props[LoggerKey])
            && (LoggerKey !in props ==> c.loggerClass == "org.owasp.csrfguard.log.ConsoleLogger")
            && (PrngKey in props ==> c.prngAlgorithm == props[PrngKey])
            && (PrngKey !in props ==> c.prngAlgorithm == "SHA1PRNG")
            && (PrngProviderKey in props ==> c.prngProvider == props[PrngProviderKey])
            && (PrngProviderKey !in props ==> c.prngProvider == "SUN")
            && (c.rotate <==> ParseBoolean(GetProperty(props, RotateKey)))
            && (c.tokenPerPage <==> ParseBoolean(GetProperty(props, TokenPerPageKey)))
            && (c.tokenPerPagePrecreate <==> ParseBoolean(GetProperty(props, TokenPerPagePrecreateKey)))
            && (c.ajax <==> ParseBoolean(GetProperty(props, AjaxKey)))
            && (c.protect <==> ParseBoolean(GetProperty(props, ProtectKey)))
            && (RotateKey !in props ==> !c.rotate)
            && (TokenPerPageKey !in props ==> !c.tokenPerPage)
            && (TokenPerPagePrecreateKey !in props ==> !c.tokenPerPagePrecreate)
            && (AjaxKey !in props ==> !c.ajax)
            && (ProtectKey !in props ==> !c.protect)
            && c.protectedMethods == ParseProtectedMethods(GetProperty(props, ProtectedMethodsKey))
  {
    LemmaParseBoolean(Some("false"));
  }

  /** The landing-page flag follows its own key when present; otherwise it is
      set exactly when a landing page is configured. */
  lemma LemmaParseLandingPage(props: Properties, keys: seq<string>)
    requires IsEnumeration(keys, props)
    requires Parse(props, keys).Success?
    ensures var c := Parse(props, keys).value;
            && c.newTokenLandingPage == GetProperty(props, NewTokenLandingPageKey)
            && (UseNewTokenLandingPageKey in props ==>
                  c.useNewTokenLandingPage == ParseBoolean(Some(props[UseNewTokenLandingPageKey])))
            && (UseNewTokenLandingPageKey !in props ==>
                  (c.useNewTokenLandingPage <==> NewTokenLandingPageKey in props))
  {
    LemmaParseBoolean(Some("false"));
  }

  /** An absent list, or one that trims to empty, protects no method. */
  lemma LemmaProtectedMethodsEmpty(methodList: Option<string>)
    requires methodList.None? || Trim(methodList.value) == ""
    ensures ParseProtectedMethods(methodList) == {}
  {
  }

  /** Every protected method is trimmed and free of commas. */
  lemma LemmaProtectedMethodsTrimmed(v: string)
    requires Trim(v) != ""
    ensures forall m | m in ParseProtectedMethods(Some(v)) :: ',' !in m && Trim(m) == m
  {
    var pieces := SplitAll(v, ',');
    var split := JavaSplit(v, ',');
    forall m | m in ParseProtectedMethods(Some(v))
      ensures ',' !in m && Trim(m) == m
    {
      var i :| 0 <= i < |split| && Trim(split[i]) == m;
      assert split[i] == pieces[i];
      LemmaTrimIdempotent(pieces[i]);
    }
  }

  /** Reference reading of the method list: every comma-separated piece,
      empty ones included, trimmed. */
  ghost function TrimmedPieces(v: string): set<string> {
    var pieces := SplitAll(v, ',');
    set i | 0 <= i < |pieces| :: Trim(pieces[i])
  }

  /** The empty string aside, the protected methods are exactly the trimmed
      comma-separated pieces of the list; the trailing empty pieces that
      `String.split` drops could only have added the empty string. */
  lemma LemmaProtectedMethodsPieces(v: string)
    requires Trim(v) != ""
    ensures ParseProtectedMethods(Some(v)) <= TrimmedPieces(v)
    ensures TrimmedPieces(v) - {""} <= ParseProtectedMethods(Some(v))
  {
    var r := ParseProtectedMethods(Some(v));
    var pieces := SplitAll(v, ',');
    var split := JavaSplit(v, ',');
    forall m | m in r
      ensures m in TrimmedPieces(v)
    {
      var i :| 0 <= i < |split| && Trim(split[i]) == m;
      assert split[i] == pieces[i];
    }
    forall m | m in TrimmedPieces(v) && m != ""
      ensures m in r
    {
      var i :| 0 <= i < |pieces| && Trim(pieces[i]) == m;
      assert split[i] == pieces[i];
    }
  }

  /** A list without a comma protects just its trimmed self. */
  lemma LemmaProtectedMethodsSingle(v: string)
    requires Trim(v) != "" && ',' !in v
    ensures ParseProtectedMethods(Some(v)) == {Trim(v)}
  {
    var r := ParseProtectedMethods(Some(v));
    var split := JavaSplit(v, ',');
    assert split == [v];
    assert Trim(split[0]) in r;
    forall x | x in r
      ensures x == Trim(v)
    {
      var i :| 0 <= i < |split| && Trim(split[i]) == x;
    }
  }

  /** Every comma-separated piece of `v` is empty. */
  ghost predicate AllPiecesEmpty(v: string) {
    forall i | 0 <= i < |SplitAll(v, ',')| :: SplitAll(v, ',')[i] == ""
  }

  /** No method is protected exactly when the list is blank once trimmed or
      is made only of commas, since `split` then discards every piece. */
  lemma LemmaProtectedMethodsNone(v: string)
    ensures ParseProtectedMethods(Some(v)) == {} <==> Trim(v) == "" || AllPiecesEmpty(v)
  {
    var all := SplitAll(v, ',');
    var pieces := JavaSplit(v, ',');
    if Trim(v) != "" {
      if |pieces| > 0 {
        assert Trim(pieces[0]) in ParseProtectedMethods(Some(v));
        var last := |pieces| - 1;
        if ',' in v {
          assert all[last] == pieces[last] != "";
        } else {
          assert all == [v];
          assert v != "";
        }
      } else {
        assert ',' in v;
        assert AllPiecesEmpty(v);
      }
    }
  }

  /** The empty string is a protected method exactly when some piece trims to
      empty and a piece at or after it is not empty, so that `split` keeps it. */
  lemma LemmaProtectedMethodsBlank(v: string)
    requires Trim(v) != ""
    ensures "" in ParseProtectedMethods(Some(v))
        <==> exists i, j | 0 <= i <= j < |SplitAll(v, ',')| ::
               Trim(SplitAll(v, ',')[i]) == "" && SplitAll(v, ',')[j] != ""
  {
    var all := SplitAll(v, ',');
    var pieces := JavaSplit(v, ',');
    var methods := ParseProtectedMethods(Some(v));
    if "" in methods {
      if ',' !in v {
        // The list is then its one piece, which does not trim to empty.
        assert false;
      }
      var i :| 0 <= i < |pieces| && Trim(pieces[i]) == "";
      var j := |pieces| - 1;
      assert all[i] == pieces[i];
      assert all[j] == pieces[j] != "";
    }
    if i, j :| 0 <= i <= j < |all| && Trim(all[i]) == "" && all[j] != "" {
      assert j < |pieces|;
      assert all[i] == pieces[i];
      assert Trim(pieces[i]) in methods;
    }
  }

  /** A list whose only piece is blank protects the empty string, which is not
      the same as protecting nothing. */
  lemma LemmaProtectedMethodsBlankPiece()
    ensures ParseProtectedMethods(Some(" ,")) == {""}
  {
    var v := " ,";
    assert Trim(v) == ",";
    assert IndexOf(v, ',') == 1;
    assert v[..1] == " " && v[2..] == "";
    assert IndexOf("", ',') == -1;
    assert SplitAll("", ',') == [""];
    assert SplitAll(v, ',') == [" ", ""];
    assert JavaSplit(v, ',') == [" "];
    assert Trim(" ") == "";
  }

  /** Worked method lists: absent, blank and a single padded method. */
  lemma LemmaProtectedMethodsExamples()
    ensures ParseProtectedMethods(None) == {}
    ensures ParseProtectedMethods(Some("  ")) == {}
    ensures ParseProtectedMethods(Some(" POST ")) == {"POST"}
  {
    assert Trim("  ") == "";
    assert IndexOf(" POST ", ',') == -1;
    assert JavaSplit(" POST ", ',') == [" POST "];
    assert Trim(" POST ") == "POST" by {
      assert TrimStart(" POST ") == 1;
      assert TrimEnd(" POST ", 1, 6) == 5;
    }
    var r := ParseProtectedMethods(Some(" POST "));
    assert Trim(JavaSplit(" POST ", ',')[0]) == "POST";
    assert "POST" in r;
    assert r == {"POST"};
  }

  /** `String.split` drops trailing empty pieces, so a trailing comma adds no
      empty method and a list of one comma protects no method at all. */
  lemma LemmaProtectedMethodsTrailingComma()
    ensures ParseProtectedMethods(Some("POST,")) == {"POST"}
    ensures ParseProtectedMethods(Some(",")) == {}
  {
    var s := "POST,";
    assert IndexOf(s, ',') == 4;
    assert s[..4] == "POST";
    assert s[5..] == "";
    assert SplitAll(s, ',') == ["POST", ""];
    assert JavaSplit(s, ',') == ["POST"];
    assert Trim("POST") == "POST" by {
      assert TrimStart("POST") == 0;
      assert TrimEnd("POST", 0, 4) == 4;
    }
    assert Trim(s) != "" by {
      assert TrimStart(s) == 0;
    }
    assert Trim(",") == "," by {
      assert TrimStart(",") == 0;
      assert TrimEnd(",", 0, 1) == 1;
    }
    assert IndexOf(",", ',') == 0;
    assert SplitAll(",", ',') == ["", ""];
    assert JavaSplit(",", ',') == [];
  }

  /** Only the order of the action list and the name in an undeclared-action
      error depend on the key iteration order: two enumerations of the same
      properties succeed or fail alike and yield the same settings and the
      same actions. */
  lemma LemmaParseOrderIndependent(props: Properties, keys1: seq<string>, keys2: seq<string>)
    requires IsEnumeration(keys1, props) && IsEnumeration(keys2, props)
    ensures Parse(props, keys1).Success? <==> Parse(props, keys2).Success?
    ensures Parse(props, keys1) == Failure(NoAction) <==> Parse(props, keys2) == Failure(NoAction)
    ensures Parse(props, keys1).Success? ==>
              var c1 := Parse(props, keys1).value;
              var c2 := Parse(props, keys2).value;
              && c1.(actions := []) == c2.(actions := [])
              && (set a | a in c1.actions) == (set a | a in c2.actions)
  {
    LemmaParseOutcome(props, keys1);
    LemmaParseOutcome(props, keys2);
    if Parse(props, keys1).Success? {
      var c1 := Parse(props, keys1).value;
      var c2 := Parse(props, keys2).value;
      LemmaParsePages(props, keys1);
      LemmaParsePages(props, keys2);
      LemmaParseActions(props, keys1);
      LemmaParseActions(props, keys2);
      LemmaParseActionParameters(props, keys1);
      LemmaParseActionParameters(props, keys2);
      LemmaSameActions(props, c1.actions, c2.actions);
      LemmaSameActions(props, c2.actions, c1.actions);
    }
  }

  /** Two action lists that both match the declarations and parameters of
      `props` hold the same actions. */
  lemma LemmaSameActions(props: Properties, xs: seq<Action>, ys: seq<Action>)
    requires Names(xs) == Names(ys)
    requires forall i | 0 <= i < |xs| ::
               ActionPrefix + xs[i].name in props && xs[i].className == props[ActionPrefix + xs[i].name]
    requires forall i | 0 <= i < |ys| ::
               ActionPrefix + ys[i].name in props && ys[i].className == props[ActionPrefix + ys[i].name]
    requires forall i, p | 0 <= i < |xs| :: p in xs[i].parameters <==> ParameterKey(xs[i].name, p) in props
    requires forall i, p | 0 <= i < |ys| :: p in ys[i].parameters <==> ParameterKey(ys[i].name, p) in props
    requires forall i, p | 0 <= i < |xs| && p in xs[i].parameters ::
               xs[i].parameters[p] == props[ParameterKey(xs[i].name, p)]
    requires forall i, p | 0 <= i < |ys| && p in ys[i].parameters ::
               ys[i].parameters[p] == props[ParameterKey(ys[i].name, p)]
    ensures forall a | a in xs :: a in ys
  {
    forall a | a in xs
      ensures a in ys
    {
      var i :| 0 <= i < |xs| && xs[i] == a;
      assert a.name in Names(ys);
      var j :| 0 <= j < |ys| && ys[j].name == a.name;
      assert xs[i].parameters == ys[j].parameters;
      assert xs[i] == ys[j];
    }
  }
}

=== FILE: wrappers.dfy ===
/** Optional values and results with an error, standing in for Java's `null`
    and for the exceptions the configuration parser throws. */
module Wrappers {

  /** A value that may be absent: `None` plays the role of a Java `null` reference. */
  datatype Option<+T> = None | Some(value: T) {

    /** The wrapped value, or `default` when there is none. */
    function GetOr(default: T): T {
      match this
      case Some(v) => v
      case None => default
    }
  }

  /** The outcome of an operation that either produces a value or fails with an error. */
  datatype Result<+R, +E> = Success(value: R) | Failure(error: E) {

    predicate IsFailure() {
      Failure?
    }

    function PropagateFailure<U>(): Result<U, E>
      requires Failure?
    {
      Failure(error)
    }

    function Extract(): R
      requires Success?
    {
      value
    }
  }
}
